=== FILE: README.md ===
# Smart Auto Bookmark — a Dafny model of the background worker

This project models, in Dafny, the visit-aggregation and auto-bookmark engine of the
Smart Auto Bookmark Chrome extension (`background.js`). Every completed page load is
counted per URL and per month; once a URL's capped visit total reaches the threshold it
is bookmarked into a folder chosen by its frequency tier; failed bookmark attempts
are retried and then queued; a periodic job drains the retry queue; and old month
buckets are pruned.

`bookmarked` is kept per month record. A new month's record starts with it false, so
the URL is tried again that month. A successful drain of the retry queue (lines 300-309)
does not set `bookmarked` either. In both cases the later attempt finds the existing
bookmark and answers `Exists`, so no duplicate bookmark is created.

All browser APIs are outside the model. Their answers come in as parameters: whether
`isValidUrl` accepts the URL, the current UTC date key `today`, the current time `now`
in milliseconds, the current local (year, month) for cleanup, the stored bytes and the
quota, and an oracle `answer: nat -> Attempt` giving what each bookmark attempt meets.
Each attempt can find a bookmark that already `Exists`, get one `Created`, or be
`Failed` (a thrown error or a missing folder). Storage is a `Store` value with one
optional field per storage key. Operations are pure functions or methods that return
the new store.

Modules (one file each):

- `Wrappers` — `Option`.
- `Strings` — JavaScript string `<`, `includes`, `String(n)` and `padStart(2, "0")`. It
  also proves that string order is numeric order on zero-padded digit strings.
- `Days` — the `dailyVisits` object as an insertion-ordered sequence of (date, count)
  entries: counting a visit, evicting the oldest days beyond 31, and the capped sum.
- `Visits` — settings, the visit record, and the counting step of `processVisit`.
- `Tiers` — the frequency tier and folder title chosen by `getFrequencyFolder`.
- `Redlist` — the exclusion list: the anchored wildcard matcher and `isRedlisted`.
- `Bookmarks` — `addToBookmarksWithRetry` as a loop over attempt outcomes, plus retry entries.
- `RetryQueue` — `processRetryQueue`.
- `Storage` — the stored keys.
- `Retention` — `performCleanup` and `checkStorageUsage`.
- `Background` — `processVisit`.

Four behaviours of `background.js` a reader may not expect:

- Old days are evicted before the flood test, not after.
- A pattern takes the wildcard path only when it contains `*`. A `?`-only pattern is a
  substring test.
- The wildcard match is anchored at both ends. So `*.example.com` does not match
  `https://foo.example.com/x` (lemma `Redlist.AnchoredAtEnd`).
- The 80%-quota trigger does not override a disabled `autoCleanup`.

## Model

| member | source | states |
|---|---|---|
| Strings.Includes | background.js:162 | `url.includes(pattern)` holds exactly when the pattern occurs at some offset of the URL; the empty pattern occurs in every URL |
| Strings.DigitsOrder | background.js:372-379 | on digit strings of one length, string order is numeric order and equal strings mean equal numbers |
| Days.Increment | background.js:101 | today's count goes up by exactly one (from 0 when absent); no other date appears, disappears or changes count; the table grows only for a new date and dates stay distinct |
| Days.Evict | background.js:104-110 | exactly min(n, 31) entries remain; a table of at most 31 is untouched; kept entries are unchanged originals; every dropped date is no later than every kept date |
| Days.EvictOnlyRemoves | background.js:104-110 | after eviction every remaining date has its old count, and every removed date sorts no later than any date still present |
| Days.EvictKeepsLatest | background.js:104-110 | the lexicographically latest date is never evicted |
| Days.CappedSum | background.js:119-122 | the total with each day counted at most twice is at most 2 per stored day |
| Days.IncrementCappedSum | background.js:101-122 | counting a visit raises the capped total by one exactly when that day had fewer than two visits, otherwise leaves it |
| Visits.NewRecord | background.js:85-93 | a first-seen URL starts with no days, total 0, not bookmarked, the page title as given, first visit today |
| Visits.CountDay | background.js:101-110 | after a visit: at most 31 distinct dates; today's count is one more than before; other kept days keep their counts; the size is min(old size plus a new date, 31); evicted days precede every kept day; today survives when no stored date is later, and a new today is dropped only when it is no later than every kept day |
| Visits.CountVisit | background.js:84-125 | title becomes the latest; firstVisit and bookmarked are kept; at the flood limit the old total stays and no bookmark is tried; otherwise the total is the capped sum, and a bookmark is tried iff total >= threshold and not yet bookmarked; the record invariant is kept |
| Visits.VisitLaterDay | background.js:101-110 | a visit on a day later than every stored day appends it with count 1 and, when 31 days were stored, drops exactly the oldest |
| Visits.LatestDaysKept | background.js:101-110 | one visit on each of a run of ever later days leaves exactly the latest 31 of them (after 40 days the first 9 are gone), oldest first, one visit each; this is a fact about one day table, since a month record only ever receives that month's dates (see Left out) |
| Visits.TodaySurvives | background.js:101-110 | after counting, today's entry is kept exactly when the table already held today, had room for one more day, or held an earlier day; otherwise a new today is the oldest of 32 days and is dropped |
| Visits.FloodNeverBookmarks | background.js:112-116 | a visit that brings today's count to the flood limit never tries a bookmark and leaves the total unchanged, whenever today's entry survives eviction, that is, whenever the table holds today, has room for it, or holds an earlier day |
| Visits.BookmarkedIsFinal | background.js:125 | a bookmarked record stays bookmarked and never triggers another attempt |
| Visits.TotalBounded | background.js:119-122 | a recomputed total is at most 2 times the stored days, hence at most 62 |
| Tiers.Classify | background.js:202-211 | the tier is the highest one whose floor (Weekly 4, Regular 7, Daily 15) the count reaches, New below 4; the day count plays no part |
| Tiers.ClassifyMonotone | background.js:198-211 | more visits never give a lower tier, whatever the day counts |
| Tiers.FolderNamesDistinct | background.js:202-215 | different tiers have different folder titles, so lookup by title finds the tier's own folder |
| Redlist.StarMatches | background.js:170-174 | the pattern `*` matches exactly the strings without a line terminator |
| Redlist.MatchWithoutStar | background.js:170-174 | without `*`, a match means same length and each character equal to its pattern character, where `?` and `.` take any non-line-terminator |
| Redlist.LiteralPrefix | background.js:172 | the match is anchored at the start: literal leading text must begin the URL, and the rest of the pattern must match the rest |
| Redlist.LiteralSuffix | background.js:172 | the match is anchored at the end: a pattern ending in a literal character matches only strings ending in it |
| Redlist.PrefixStar | background.js:170-174 | `prefix*` with a literal prefix matches exactly the one-line strings that start with the prefix |
| Redlist.DotIsWildcard | background.js:171 | a `.` in a wildcard pattern is not escaped, so `*a.b` matches `xa-b` |
| Redlist.AnchoredAtEnd | background.js:170-174 | `*.example.com` does not match `https://foo.example.com/x` |
| Redlist.AnyItemMatches | background.js:158-163 | some entry of the list matches the URL |
| Redlist.IsRedlisted | background.js:153-167 | a URL is excluded iff a list is stored and some entry matches it: wildcard test when the pattern holds `*`, substring test otherwise |
| Redlist.QuestionMarkLiteralWithoutStar | background.js:159-162 | in a pattern without `*`, `?` is literal: the entry matches iff the URL contains the pattern verbatim |
| Redlist.EmptyPatternExcludesAll | background.js:162 | an entry with an empty pattern excludes every URL |
| Redlist.DefaultExcludesChromePages | background.js:22-33 | the installed list excludes every one-line URL starting with `chrome://` |
| Storage.InstalledStore | background.js:15-35 | on a fresh profile, the store written at installation satisfies the record invariant, holds no retry queue, and excludes every one-line `chrome://` URL; on an update `onInstalled` leaves an existing retry queue in place, which this lemma does not cover |
| Bookmarks.Enqueue | background.js:272-284 | the stored queue, or an empty one, gains exactly one entry at the end and keeps the rest |
| Bookmarks.AddToBookmarksWithRetry | background.js:228-269 | at most maxRetries attempts; succeeds iff some allowed attempt does, stopping at the first; an existing bookmark means success without a create; a created bookmark goes in the tier's folder; false only after maxRetries failures, then exactly one queue entry (none when maxRetries < 1) |
| RetryQueue.Revisit | background.js:300-312 | an entry stays queued iff it is not yet due (older than one hour) or its single attempt fails |
| RetryQueue.ProcessRetryQueue | background.js:291-316 | the stored queue is the input in order, keeping exactly the entries that are not due or whose attempt failed; an absent queue stays absent |
| RetryQueue.DrainKeepsExactlyTheUnfinished | background.js:299-315 | the drained queue is never longer; every entry comes from the old queue; every not-due or failed entry stays; nothing due means no change; all due and succeeding empties it |
| Retention.MonthsBefore | background.js:370-371 | the cutoff month is a valid month exactly keepMonths months before now |
| Retention.KeepMonths | background.js:366 | the kept span is the stored keepDataMonths, or 6 when settings or the value are missing or 0 |
| Retention.PerformCleanup | background.js:360-389 | no change without a history or with autoCleanup off; otherwise exactly the month keys >= the cutoff key are kept with unchanged contents; other storage keys are untouched |
| Retention.CheckStorageUsage | background.js:344-357 | below 80% of the quota nothing changes; above it cleanup runs, and still does nothing when autoCleanup is off |
| Retention.MonthKeyOrder | background.js:372-379 | for four-digit years, "YYYY-MM" keys compare as strings exactly as the months compare in time |
| Retention.CleanupKeepsRecentMonths | background.js:366-382 | a well-formed month bucket survives cleanup iff it lies at most keepMonths months before now |
| Retention.SixMonthsFromJune2025 | background.js:366-382 | keeping 6 months in June 2025 keeps "2024-12" and removes "2024-11" |
| Background.PutRecord | background.js:84-95 | after storing, the month/URL slot holds the record, every other slot is as before, the month keys are the old ones plus this month, and valid records stay valid |
| Background.ProcessVisit | background.js:68-140 | no change unless enabled, valid and not excluded; otherwise only this month's record for the URL changes, and the only month key that can appear is this month's; bookmarked is set only by a successful attempt and never cleared; the retry queue gains one entry only when an attempt fails throughout |

## Left out

- All `chrome.*` I/O is out: storage get/set, bookmark search/create/getTree/getChildren,
  notifications, alarms, and the install/update/alarm listeners. Their results are
  parameters. `Storage.Installed` records what installation writes on a fresh profile.
- Concurrency is out. Two overlapping `processVisit` calls can lose an update (lines 80
  and 136). The drain's final write overwrites the nested re-queue (lines 260 and 315).
  The model is sequential and keeps a failed due entry once.
- Storage errors caught by `try/catch` are out. The model does not cover the case where
  nothing is saved.
- `isValidUrl` is out: it depends on the WHATWG URL parser. It is the boolean parameter `urlIsValid`.
- A list entry whose `pattern` is neither a string nor an array makes `isRedlisted`
  throw when `some` reaches it. The answer is then false, even if a later entry would
  match. An array pattern does not throw: `includes` turns it into a string. These cases
  are out, because every modelled entry has a string pattern.
- `showBookmarkNotification` is out. It is fire-and-forget and does not affect state.
- `createAutoBookmarkFolder` and the folder lookup/creation in `getFrequencyFolder` are
  collapsed into the outcome of an attempt. A missing folder is a `Failed` attempt.
- The one-second pause between attempts is out.
- Date handling is out. `today` and `now` are inputs. `setMonth` day overflow (the 31st
  minus a month) is out. So is the UTC date of `processVisit` against the local month of
  `performCleanup`. The cutoff uses plain (year, month) arithmetic.
- Background.ProcessVisit: requires `today` in "YYYY-MM-DD" form, which `toISOString` gives
  for years 0 to 9999. It also requires every stored record to satisfy the record
  invariant. Each date is held once, as a JSON object does. There are at most 31 days,
  and the total is between 0 and 62. The program keeps these bounds on everything it
  writes, and `ProcessVisit` proves that it preserves them.
- Visits.FloodNeverBookmarks: stated for the visits where today's entry survives
  eviction. By `Visits.TodaySurvives`, those are exactly the visits where the table
  already holds today, has room for it, or holds an earlier day. Inside `processVisit`
  the first two always hold, because a month record holds at most 31 days. When eviction
  drops a new today, the code sees `undefined` and does not short-circuit, so the rule
  does not apply there.
- Retention.MonthKeyOrder: proved for four-digit years only. Outside them `String(year)`
  is not four characters, and string order is not chronological.
- Retention.CleanupKeepsRecentMonths: stated for four-digit years of the bucket and the
  cutoff, for the same reason.
- Visits.CountDay: eviction cannot happen through `processVisit`. A record lives under
  `history[monthKey][url]`, and `monthKey` is the first seven characters of `today`
  (lines 77 and 84-85). So a record only ever receives dates of its own month, at most 31
  of them, and the branch at lines 104-110 never runs. The model does not carry that
  month/date link: `CountDay` is stated for any day table, and `Background.ProcessVisit`
  does not prove the branch dead. Where eviction would apply, a new today is dropped only
  when it is no later than every kept date. The flood test then sees `undefined`, and
  the model treats that as false, like the code. `Visits.LatestDaysKept` is likewise a
  statement about one day table. Forty consecutive days always span two month records.
- The 80% test is modelled in integers (`5 * bytes > 4 * quota`). The floating-point
  rounding of `QUOTA_BYTES * 0.8` is out.
- Regular-expression characters other than `*`, `?` and `.` in user patterns are read
  as literals. `.`, and the `.*` that `*` becomes, reject line terminators as
  JavaScript's dot does.
- `?` and `.` in `Redlist.MatchWildcard` consume one Dafny character, which is one code
  point. JavaScript's regex dot without the `u` flag consumes one UTF-16 unit. The two
  differ only outside the Basic Multilingual Plane. An http(s) URL that reaches
  `isRedlisted` is ASCII after the URL parser, so no checked URL is affected.
- Characters are ordered by code point. This equals JavaScript's UTF-16 order except
  between characters outside the Basic Multilingual Plane and some characters inside it.
  Date and month keys are ASCII.
- Settings that are not numbers (`NaN` from `parseInt`) are out. `organizationType` is
  stored but never read.
- `options.js` and `popup.js` are out. They are settings and display UI with storage I/O.

=== FILE: background.dfy ===
/**
 `processVisit`, the handler for a completed page load: skip when tracking is
 off, the URL is not http(s) or it is on the exclusion list; otherwise count
 the visit in this month's record for the URL, try to bookmark it when the
 record asks for that, and store the history back.
 */
module Background {
  import opened Wrappers
  import opened Strings
  import opened Visits
  import opened Redlist
  import opened Bookmarks
  import opened Storage

  /** Attempts allowed to a bookmark triggered by a visit. */
  const MaxRetries: int := 3

  /** A UTC date key as `toISOString().split("T")[0]` gives it: "YYYY-MM-DD". */
  predicate IsDayKey(s: string)
  {
    && |s| == 10 && s[4] == '-' && s[7] == '-'
    && forall i :: 0 <= i < 10 && i != 4 && i != 7 ==> IsDigit(s[i])
  }

  /** `today.substring(0, 7)`: the month bucket of a day. */
  function MonthOf(today: string): string
    requires IsDayKey(today)
  {
    today[..7]
  }

  /** Whether a visit is counted: tracking on, URL accepted by `isValidUrl`, and not excluded. */
  predicate Tracked(store: Store, url: string, urlIsValid: bool)
  {
    store.settings.Some? && store.settings.value.enabled && urlIsValid && !IsRedlisted(url, store.redlist)
  }

  /** The stored record of `url` in month `month`, if any. */
  function RecordOf(history: Option<History>, month: string, url: string): Option<VisitRecord>
  {
    if history.Some? && month in history.value && url in history.value[month] then Some(history.value[month][url]) else None
  }

  /** `history[month][url] = record` on a history that may not exist yet. */
  function PutRecord(history: Option<History>, month: string, url: string, record: VisitRecord): (h: History)
    ensures RecordOf(Some(h), month, url) == Some(record)
    ensures forall m, u :: (m != month || u != url) ==> RecordOf(Some(h), m, u) == RecordOf(history, m, u)
    ensures h.Keys == history.GetOr(map[]).Keys + {month}
    ensures (history.Some? ==> ValidHistory(history.value)) && ValidRecord(record) ==> ValidHistory(h)
  {
    var h0 := history.GetOr(map[]);
    var bucket := if month in h0 then h0[month] else map[];
    h0[month := bucket[url := record]]
  }

  /** The counting step for this visit, before any bookmark attempt. */
  function Step(store: Store, url: string, title: string, today: string): Counted
    requires ValidStore(store) && store.settings.Some? && IsDayKey(today)
  {
    CountVisit(RecordOf(store.visitHistory, MonthOf(today), url), title, today, store.settings.value)
  }

  /**
   `urlIsValid` is `isValidUrl(url)` (the URL parser is not modelled), `today`
   the current UTC date key, `now` the current time in milliseconds, and
   `answer` the bookmark collaborator's outcome on each attempt.
   */
  method ProcessVisit(store: Store, url: string, title: string, urlIsValid: bool, today: string, now: int, answer: nat -> Attempt)
    returns (s: Store)
    requires ValidStore(store) && IsDayKey(today)
    ensures ValidStore(s)
    ensures s.settings == store.settings && s.redlist == store.redlist
    ensures !Tracked(store, url, urlIsValid) ==> s == store
    // the visit lands in this month's record for the URL ...
    ensures Tracked(store, url, urlIsValid) ==>
      && RecordOf(s.visitHistory, MonthOf(today), url).Some?
      && s.visitHistory.value[MonthOf(today)][url].(bookmarked := false) == Step(store, url, title, today).record.(bookmarked := false)
    // ... and nothing else in the history changes
    ensures Tracked(store, url, urlIsValid) ==>
      forall m, u :: (m != MonthOf(today) || u != url) ==> RecordOf(s.visitHistory, m, u) == RecordOf(store.visitHistory, m, u)
    ensures Tracked(store, url, urlIsValid) ==>
      s.visitHistory.Some? && s.visitHistory.value.Keys == store.visitHistory.GetOr(map[]).Keys + {MonthOf(today)}
    // the bookmarked flag is set only by a successful attempt and never cleared
    ensures Tracked(store, url, urlIsValid) ==>
      (s.visitHistory.value[MonthOf(today)][url].bookmarked <==>
        || Step(store, url, title, today).record.bookmarked
        || (Step(store, url, title, today).attempt && exists i :: 0 <= i < MaxRetries && answer(i) != Failed))
    // the retry queue changes only by one entry after a bookmark attempt that failed throughout
    ensures !Tracked(store, url, urlIsValid) || !Step(store, url, title, today).attempt ==> s.retryQueue == store.retryQueue
    ensures Tracked(store, url, urlIsValid) && Step(store, url, title, today).attempt ==>
      s.retryQueue == if s.visitHistory.value[MonthOf(today)][url].bookmarked then store.retryQueue
                      else Enqueue(store.retryQueue, RetryItem(url, title, Step(store, url, title, today).record, now))
  {
    if !Tracked(store, url, urlIsValid) {
      return store;
    }
    var counted := Step(store, url, title, today);
    var rec := counted.record;
    var queue := store.retryQueue;
    if counted.attempt {
      var success, _, _, queue' := AddToBookmarksWithRetry(url, title, rec, queue, now, MaxRetries, answer);
      queue := queue';
      if success {
        rec := rec.(bookmarked := true);
      }
    }
    s := store.(visitHistory := Some(PutRecord(store.visitHistory, MonthOf(today), url, rec)), retryQueue := queue);
  }
}

=== FILE: bookmarks.dfy ===
/**
 `addToBookmarksWithRetry`: up to `maxRetries` attempts, each of which first
 looks for an existing bookmark of the URL and otherwise creates one in the
 tier's folder. The bookmark collaborator is the oracle `answer`: its outcome
 on attempt `i` (counting from 0). A search or create that throws, or a folder
 that cannot be had, is a failed attempt. After the last failed attempt the
 request is appended to the retry queue, stamped with `now`.
 */
module Bookmarks {
  import opened Wrappers
  import opened Visits
  import opened Tiers

  /** What one attempt meets: a bookmark already there, a bookmark created, or an error. */
  datatype Attempt = Exists | Created | Failed

  /** One entry of the stored retry queue. */
  datatype RetryItem = RetryItem(url: string, title: string, visitData: VisitRecord, timestamp: int)

  /** `(retryQueue || []).push(item)`, stored back. */
  function Enqueue(queue: Option<seq<RetryItem>>, item: RetryItem): (q: Option<seq<RetryItem>>)
    ensures q.Some? && |q.value| == |queue.GetOr([])| + 1
    ensures q.value[..|q.value| - 1] == queue.GetOr([]) && q.value[|q.value| - 1] == item
  {
    Some(queue.GetOr([]) + [item])
  }

  /** The folder a created bookmark goes into. */
  function TierOf(visitData: VisitRecord): Tier
  {
    Classify(visitData.totalCount, |visitData.dailyVisits|)
  }

  method AddToBookmarksWithRetry(
    url: string, title: string, visitData: VisitRecord,
    queue: Option<seq<RetryItem>>, now: int, maxRetries: int, answer: nat -> Attempt)
    returns (success: bool, attempts: nat, created: Option<Tier>, queue': Option<seq<RetryItem>>)
    // never more attempts than allowed
    ensures attempts <= if maxRetries < 0 then 0 else maxRetries
    // it succeeds exactly when one of the allowed attempts does, and stops at the first that does
    ensures success <==> exists i :: 0 <= i < maxRetries && answer(i) != Failed
    ensures success ==> 1 <= attempts && answer(attempts - 1) != Failed
    ensures forall i :: 0 <= i < attempts - 1 ==> answer(i) == Failed
    ensures !success ==> forall i :: 0 <= i < attempts ==> answer(i) == Failed
    ensures !success ==> attempts == if maxRetries < 0 then 0 else maxRetries
    // a bookmark is created only when none existed, and in the tier's folder
    ensures created.Some? <==> success && answer(attempts - 1) == Created
    ensures created.Some? ==> created.value == TierOf(visitData)
    // a final failure queues the request exactly once; nothing else touches the queue
    ensures queue' == if !success && maxRetries >= 1 then Enqueue(queue, RetryItem(url, title, visitData, now)) else queue
  {
    success, attempts, created, queue' := false, 0, None, queue;
    var i := 0;
    while i < maxRetries
      invariant 0 <= i && (maxRetries >= 1 ==> i < maxRetries) && (maxRetries < 1 ==> i == 0)
      invariant attempts == i
      invariant forall j :: 0 <= j < i ==> answer(j) == Failed
      invariant !success && created.None? && queue' == queue
      decreases maxRetries - i
    {
      attempts := i + 1;
      var outcome := answer(i);
      if outcome == Exists {
        success := true;
        return;
      } else if outcome == Created {
        success, created := true, Some(TierOf(visitData));
        return;
      }
      if i == maxRetries - 1 {
        queue' := Enqueue(queue, RetryItem(url, title, visitData, now));
        return;
      }
      i := i + 1;
    }
  }
}

=== FILE: days.dfy ===
/**
 The `dailyVisits` object of a visit record: date key ("YYYY-MM-DD") to the
 number of visits that day. A JavaScript object keeps its string keys in
 insertion order, so it is modelled as a sequence of entries with distinct
 dates; new dates are appended at the end.
 */
module Days {
  import opened Wrappers
  import opened Strings

  /** The most dates a record keeps (background.js keeps 31 days). */
  const MaxDays: nat := 31

  /** A day's visits count toward the total at most this often. */
  const DailyCap: nat := 2

  /** The smaller of two numbers (`Math.min`, and the `slice(0, -31)` bound). */
  function Min(a: int, b: int): int {
    if a <= b then a else b
  }

  datatype DayCount = DayCount(date: string, count: nat)

  predicate DistinctDates(d: seq<DayCount>)
  {
    forall i, j :: 0 <= i < j < |d| ==> d[i].date != d[j].date
  }

  /** Position of `date` in `d`, or `|d|` when the date has no entry. */
  function Find(d: seq<DayCount>, date: string): (i: nat)
    ensures i <= |d|
    ensures i < |d| ==> d[i].date == date
    ensures forall j :: 0 <= j < i ==> d[j].date != date
  {
    if |d| == 0 then 0
    else if d[0].date == date then 0
    else 1 + Find(d[1..], date)
  }

  predicate HasDate(d: seq<DayCount>, date: string)
  {
    Find(d, date) < |d|
  }

  /** `dailyVisits[date] || 0`. */
  function CountOn(d: seq<DayCount>, date: string): nat
  {
    var i := Find(d, date);
    if i < |d| then d[i].count else 0
  }

  /** `dailyVisits[date] = (dailyVisits[date] || 0) + 1`. */
  function Increment(d: seq<DayCount>, date: string): (r: seq<DayCount>)
    ensures HasDate(r, date)
    ensures CountOn(r, date) == CountOn(d, date) + 1
    ensures forall k :: k != date ==> HasDate(r, k) == HasDate(d, k) && CountOn(r, k) == CountOn(d, k)
    ensures |r| == if HasDate(d, date) then |d| else |d| + 1
    ensures DistinctDates(d) ==> DistinctDates(r)
  {
    var i := Find(d, date);
    if i < |d| then
      var r := d[i := DayCount(date, d[i].count + 1)];
      FindUpdate(d, i, date, d[i].count + 1);
      r
    else
      var r := d + [DayCount(date, 1)];
      FindAppend(d, date, 1);
      r
  }

  lemma {:induction false} FindUpdate(d: seq<DayCount>, i: nat, date: string, c: nat)
    requires i < |d| && d[i].date == date && Find(d, date) == i
    ensures forall k :: Find(d[i := DayCount(date, c)], k) == Find(d, k)
  {
    var r := d[i := DayCount(date, c)];
    forall k
      ensures Find(r, k) == Find(d, k)
    {
      FindSameDates(d, r, k);
    }
  }

  lemma {:induction false} FindSameDates(d: seq<DayCount>, r: seq<DayCount>, k: string)
    requires |d| == |r| && forall j :: 0 <= j < |d| ==> d[j].date == r[j].date
    ensures Find(r, k) == Find(d, k)
  {
  }

  lemma {:induction false} FindAppend(d: seq<DayCount>, date: string, c: nat)
    requires Find(d, date) == |d|
    ensures Find(d + [DayCount(date, c)], date) == |d|
    ensures forall k :: k != date ==> Find(d + [DayCount(date, c)], k) == if Find(d, k) < |d| then Find(d, k) else |d| + 1
  {
    var r := d + [DayCount(date, c)];
    forall k
      ensures Find(r, k) == if Find(d, k) < |d| then Find(d, k) else if k == date then |d| else |d| + 1
    {
      FindPrefix(d, [DayCount(date, c)], k);
    }
  }

  lemma {:induction false} FindPrefix(d: seq<DayCount>, e: seq<DayCount>, k: string)
    ensures Find(d + e, k) == if Find(d, k) < |d| then Find(d, k) else |d| + Find(e, k)
  {
    if |d| > 0 {
      assert (d + e)[1..] == d[1..] + e;
      FindPrefix(d[1..], e, k);
    } else {
      assert d + e == e;
    }
  }

  /** Index of the lexicographically smallest date: the oldest day. */
  function OldestIndex(d: seq<DayCount>): (m: nat)
    requires |d| > 0
    ensures m < |d|
    ensures forall j :: 0 <= j < |d| ==> AtMost(d[m].date, d[j].date)
  {
    if |d| == 1 then 0
    else
      var m' := OldestIndex(d[1..]) + 1;
      assert forall j :: 1 <= j < |d| ==> d[j] == d[1..][j - 1];
      LessTotal(d[0].date, d[m'].date);
      if Less(d[m'].date, d[0].date) then
        assert forall j :: 0 <= j < |d| ==> AtMost(d[m'].date, d[j].date);
        m'
      else
        assert forall j :: 0 <= j < |d| ==> AtMost(d[0].date, d[j].date) by {
          forall j | 0 <= j < |d|
            ensures AtMost(d[0].date, d[j].date)
          {
            if j > 0 {
              AtMostTransitive(d[0].date, d[m'].date, d[j].date);
            }
          }
        }
        0
  }

  function RemoveAt(d: seq<DayCount>, i: nat): (r: seq<DayCount>)
    requires i < |d|
    ensures |r| == |d| - 1
    ensures forall e :: e in d ==> e == d[i] || e in r
    ensures forall e :: e in r ==> e in d
    ensures DistinctDates(d) ==> DistinctDates(r) && d[i] !in r
  {
    var r := d[..i] + d[i + 1..];
    assert forall j :: 0 <= j < |r| ==> r[j] == if j < i then d[j] else d[j + 1];
    assert forall j :: 0 <= j < |d| && j != i ==> d[j] == r[if j < i then j else j - 1];
    r
  }

  /**
   Drops the oldest dates until at most `MaxDays` remain. background.js sorts
   the keys and deletes all but the last 31; removing the smallest key one at a
   time deletes the same keys.
   */
  function Evict(d: seq<DayCount>): (r: seq<DayCount>)
    ensures |r| == Min(|d|, MaxDays)
    ensures |d| <= MaxDays ==> r == d
    ensures forall e :: e in r ==> e in d
    ensures forall e, f :: e in d && e !in r && f in r ==> AtMost(e.date, f.date)
    ensures DistinctDates(d) ==> DistinctDates(r)
    decreases |d|
  {
    if |d| <= MaxDays then d
    else
      var m := OldestIndex(d);
      var d' := RemoveAt(d, m);
      var r := Evict(d');
      assert forall f :: f in r ==> f in d && AtMost(d[m].date, f.date) by {
        forall f | f in r
          ensures f in d && AtMost(d[m].date, f.date)
        {
          var j :| 0 <= j < |d| && d[j] == f;
        }
      }
      r
  }

  /**
   When no stored date is later than `today`, today's entry survives eviction:
   the dates kept are the `MaxDays` latest and today is the latest.
   */
  lemma EvictKeepsLatest(d: seq<DayCount>, k: nat)
    requires DistinctDates(d) && k < |d|
    requires forall j :: 0 <= j < |d| ==> AtMost(d[j].date, d[k].date)
    ensures d[k] in Evict(d)
  {
    var r := Evict(d);
    if d[k] !in r {
      assert |r| > 0;
      var f := r[0];
      assert f in d;
      var j :| 0 <= j < |d| && d[j] == f;
      AtMostAntisymmetric(d[k].date, f.date);
    }
  }

  /** One date over the limit: eviction removes exactly the single oldest entry. */
  lemma EvictOneOver(d: seq<DayCount>)
    requires |d| == MaxDays + 1
    ensures Evict(d) == RemoveAt(d, OldestIndex(d))
  {
  }

  lemma EntryCount(d: seq<DayCount>, e: DayCount)
    requires DistinctDates(d) && e in d
    ensures HasDate(d, e.date) && CountOn(d, e.date) == e.count
  {
  }

  /**
   Eviction only removes days: every date still present keeps its count, and
   every date removed is no later than any date kept.
   */
  lemma EvictOnlyRemoves(d: seq<DayCount>)
    requires DistinctDates(d)
    ensures forall k :: HasDate(Evict(d), k) ==> HasDate(d, k) && CountOn(Evict(d), k) == CountOn(d, k)
    ensures forall k, j :: HasDate(d, k) && !HasDate(Evict(d), k) && 0 <= j < |Evict(d)| ==> AtMost(k, Evict(d)[j].date)
  {
    var r := Evict(d);
    forall k | HasDate(r, k)
      ensures HasDate(d, k) && CountOn(r, k) == CountOn(d, k)
    {
      var e := r[Find(r, k)];
      EntryCount(d, e);
      EntryCount(r, e);
    }
    forall k, j | HasDate(d, k) && !HasDate(r, k) && 0 <= j < |r|
      ensures AtMost(k, r[j].date)
    {
      var e := d[Find(d, k)];
      if e in r {
        EntryCount(r, e);
      }
      assert r[j] in r;
    }
  }

  /** `Object.values(dailyVisits).reduce((sum, c) => sum + Math.min(c, 2), 0)`. */
  function CappedSum(d: seq<DayCount>): (total: nat)
    ensures total <= DailyCap * |d|
  {
    if |d| == 0 then 0
    else CappedSum(d[..|d| - 1]) + Min(d[|d| - 1].count, DailyCap)
  }

  lemma {:induction false} CappedSumUpdate(d: seq<DayCount>, i: nat, e: DayCount)
    requires i < |d|
    ensures CappedSum(d[i := e]) == CappedSum(d) - Min(d[i].count, DailyCap) + Min(e.count, DailyCap)
  {
    var n := |d| - 1;
    if i < n {
      assert d[i := e][..n] == d[..n][i := e];
      CappedSumUpdate(d[..n], i, e);
    } else {
      assert d[i := e][..n] == d[..n];
    }
  }

  /** A visit raises the capped sum by one exactly when that day had fewer than two visits. */
  lemma IncrementCappedSum(d: seq<DayCount>, date: string)
    ensures CappedSum(Increment(d, date)) == CappedSum(d) + if CountOn(d, date) < DailyCap then 1 else 0
  {
    var i := Find(d, date);
    if i < |d| {
      CappedSumUpdate(d, i, DayCount(date, d[i].count + 1));
    } else {
      assert (d + [DayCount(date, 1)])[..|d|] == d;
    }
  }
}

=== FILE: redlist.dfy ===
/**
 The exclusion filter (`isRedlisted` and `matchWildcard`). A pattern holding
 `*` is turned into the anchored regular expression `^…$` with `*` as `.*` and
 `?` as `.`; every other character is left as it is, so a `.` in the pattern
 is the regular-expression dot too. A pattern without `*` is a plain substring
 test. The regular-expression dot (and `.*`) matches any character except a
 line terminator.
 */
module Redlist {
  import opened Wrappers
  import opened Strings

  datatype RedlistItem = RedlistItem(url: string, pattern: string, description: string)

  /** The entries written at install time. */
  const DefaultRedlist: seq<RedlistItem> := [
    RedlistItem("chrome://", "chrome://*", "Chrome内部ページ"),
    RedlistItem("chrome-extension://", "chrome-extension://*", "拡張機能ページ")
  ]

  predicate IsLineTerminator(c: char)
  {
    c == '\n' || c == '\r' || c == '\U{2028}' || c == '\U{2029}'
  }

  /** What the regular-expression dot accepts. */
  predicate AnyChar(c: char)
  {
    !IsLineTerminator(c)
  }

  /** A pattern character that stands for one arbitrary character after translation. */
  predicate IsSingleWildcard(p: char)
  {
    p == '?' || p == '.'
  }

  /** One string character against one non-`*` pattern character. */
  predicate CharMatches(c: char, p: char)
  {
    if IsSingleWildcard(p) then AnyChar(c) else c == p
  }

  /** `new RegExp("^" + translated + "$").test(s)`. */
  predicate MatchWildcard(s: string, p: string)
    decreases |s| + |p|
  {
    if |p| == 0 then |s| == 0
    else if p[0] == '*' then
      MatchWildcard(s, p[1..]) || (|s| > 0 && AnyChar(s[0]) && MatchWildcard(s[1..], p))
    else
      |s| > 0 && CharMatches(s[0], p[0]) && MatchWildcard(s[1..], p[1..])
  }

  /** `*` matches exactly the strings without a line terminator. */
  lemma {:induction false} StarMatches(s: string)
    ensures MatchWildcard(s, "*") <==> forall i :: 0 <= i < |s| ==> AnyChar(s[i])
  {
    if |s| > 0 {
      StarMatches(s[1..]);
      assert forall i :: 1 <= i < |s| ==> s[i] == s[1..][i - 1];
    }
  }

  /** Without `*` the match is positional: same length, each character matched by its pattern character. */
  lemma {:induction false} MatchWithoutStar(s: string, p: string)
    requires '*' !in p
    ensures MatchWildcard(s, p) <==> |s| == |p| && forall i :: 0 <= i < |s| ==> CharMatches(s[i], p[i])
    decreases |p|
  {
    if |p| > 0 && |s| > 0 {
      assert p[0] in p;
      assert forall c :: c in p[1..] ==> c in p;
      MatchWithoutStar(s[1..], p[1..]);
      assert forall i :: 1 <= i < |s| ==> s[i] == s[1..][i - 1];
      assert forall i :: 1 <= i < |p| ==> p[i] == p[1..][i - 1];
    }
  }

  /** A pattern character matched only by itself. */
  predicate IsLiteral(c: char)
  {
    c != '*' && !IsSingleWildcard(c)
  }

  /**
   The match is anchored at the start: a pattern beginning with literal text
   matches only strings beginning with that text, and then the rest decides.
   */
  lemma {:induction false} LiteralPrefix(s: string, lit: string, p: string)
    requires forall i :: 0 <= i < |lit| ==> IsLiteral(lit[i])
    ensures MatchWildcard(s, lit + p) <==> IsPrefix(lit, s) && MatchWildcard(s[|lit|..], p)
  {
    if |lit| > 0 {
      assert (lit + p)[0] == lit[0] && (lit + p)[1..] == lit[1..] + p;
      if |s| > 0 {
        LiteralPrefix(s[1..], lit[1..], p);
        if |lit| <= |s| {
          assert s[1..][|lit| - 1..] == s[|lit|..];
        }
        assert IsPrefix(lit, s) <==> s[0] == lit[0] && IsPrefix(lit[1..], s[1..]);
      }
    } else {
      assert lit + p == p;
    }
  }

  /** The match is anchored at the end: a pattern ending in a literal character matches only strings ending in it. */
  lemma {:induction false} LiteralSuffix(s: string, p: string)
    requires |p| > 0 && IsLiteral(p[|p| - 1])
    requires MatchWildcard(s, p)
    ensures |s| > 0 && s[|s| - 1] == p[|p| - 1]
    decreases |s| + |p|
  {
    if p[0] == '*' {
      if MatchWildcard(s, p[1..]) {
        LiteralSuffix(s, p[1..]);
      } else {
        LiteralSuffix(s[1..], p);
      }
    } else if |p| == 1 {
      assert |s[1..]| == 0;
    } else {
      LiteralSuffix(s[1..], p[1..]);
    }
  }

  /** `prefix*` with a literal prefix (such as the default `chrome://` entry) matches every line of text that starts with the prefix. */
  lemma PrefixStar(s: string, lit: string)
    requires forall i :: 0 <= i < |lit| ==> IsLiteral(lit[i])
    ensures MatchWildcard(s, lit + "*") <==> IsPrefix(lit, s) && forall i :: |lit| <= i < |s| ==> AnyChar(s[i])
  {
    LiteralPrefix(s, lit, "*");
    if IsPrefix(lit, s) {
      StarMatches(s[|lit|..]);
      assert forall i :: |lit| <= i < |s| ==> s[i] == s[|lit|..][i - |lit|];
    }
  }

  /** A `.` in a `*` pattern matches any character, not only a dot: `*a.b` matches `xa-b`. */
  lemma DotIsWildcard()
    ensures MatchWildcard("xa-b", "*a.b")
  {
  }

  /** One entry of the list: wildcard test when the pattern holds `*`, else `url.includes(pattern)`. */
  predicate ItemMatches(url: string, pattern: string)
  {
    if '*' in pattern then MatchWildcard(url, pattern) else Includes(url, pattern)
  }

  /** `redlist.some(...)`, false when no list is stored. */
  function IsRedlisted(url: string, redlist: Option<seq<RedlistItem>>): (r: bool)
    ensures r <==> redlist.Some? && exists i :: 0 <= i < |redlist.value| && ItemMatches(url, redlist.value[i].pattern)
  {
    match redlist
    case None => false
    case Some(items) => AnyItemMatches(url, items)
  }

  function AnyItemMatches(url: string, items: seq<RedlistItem>): (r: bool)
    ensures r <==> exists i :: 0 <= i < |items| && ItemMatches(url, items[i].pattern)
  {
    if |items| == 0 then false
    else if ItemMatches(url, items[0].pattern) then true
    else
      var r := AnyItemMatches(url, items[1..]);
      assert forall i :: 1 <= i < |items| ==> items[i] == items[1..][i - 1];
      r
  }

  /** Without `*`, `?` is an ordinary character: the entry matches exactly the URLs containing the pattern verbatim. */
  lemma QuestionMarkLiteralWithoutStar(url: string, pattern: string)
    requires '*' !in pattern
    ensures ItemMatches(url, pattern) <==> exists i :: OccursAt(url, pattern, i)
  {
  }

  /** An entry with an empty pattern excludes every URL. */
  lemma EmptyPatternExcludesAll(url: string, items: seq<RedlistItem>, k: nat)
    requires k < |items| && items[k].pattern == ""
    ensures IsRedlisted(url, Some(items))
  {
  }

  /** The default list excludes every `chrome://` page (on one line). */
  lemma DefaultExcludesChromePages(url: string)
    requires IsPrefix("chrome://", url)
    requires forall i :: 0 <= i < |url| ==> AnyChar(url[i])
    ensures IsRedlisted(url, Some(DefaultRedlist))
  {
    PrefixStar(url, "chrome://");
    assert "chrome://" + "*" == DefaultRedlist[0].pattern;
    assert '*' in DefaultRedlist[0].pattern by {
      assert DefaultRedlist[0].pattern[9] == '*';
    }
  }

  /** Anchoring at the end: `*.example.com` does not match a URL that continues after the host. */
  lemma AnchoredAtEnd()
    ensures !MatchWildcard("https://foo.example.com/x", "*.example.com")
  {
    var p := "*.example.com";
    if MatchWildcard("https://foo.example.com/x", p) {
      LiteralSuffix("https://foo.example.com/x", p);
    }
  }
}

=== FILE: retention.dfy ===
/**
 Retention (`performCleanup`) and its quota trigger (`checkStorageUsage`).
 The cutoff is the month `keepDataMonths` months before now, rendered as
 `${year}-${month padded to two digits}`; month buckets whose key is `>=` the
 cutoff survive, compared as strings.
 */
module Retention {
  import opened Wrappers
  import opened Strings
  import opened Visits
  import opened Storage

  /** A calendar month; `month` runs from 1 to 12. */
  datatype YearMonth = YearMonth(year: int, month: int)

  /** Months since the start of year 0. */
  function MonthIndex(ym: YearMonth): int
  {
    ym.year * 12 + (ym.month - 1)
  }

  /** The month `back` months before `now` (`setMonth(getMonth() - back)` on year and month). */
  function MonthsBefore(now: YearMonth, back: int): (c: YearMonth)
    requires 1 <= now.month <= 12
    ensures 1 <= c.month <= 12
    ensures MonthIndex(c) == MonthIndex(now) - back
  {
    var t := MonthIndex(now) - back;
    YearMonth(t / 12, t % 12 + 1)
  }

  /** `${getFullYear()}-${String(getMonth() + 1).padStart(2, "0")}`. */
  function MonthKey(ym: YearMonth): string
  {
    IntToString(ym.year) + "-" + Pad2(ym.month)
  }

  /** `settings?.keepDataMonths || 6`. */
  function KeepMonths(settings: Option<Settings>): (k: int)
    ensures k != 0
    ensures settings.Some? && settings.value.keepDataMonths != 0 ==> k == settings.value.keepDataMonths
    ensures settings.None? || settings.value.keepDataMonths == 0 ==> k == 6
  {
    if settings.None? || settings.value.keepDataMonths == 0 then 6 else settings.value.keepDataMonths
  }

  function CutoffKey(now: YearMonth, keepMonths: int): string
    requires 1 <= now.month <= 12
  {
    MonthKey(MonthsBefore(now, keepMonths))
  }

  /** The buckets whose key is `>= cutoffKey`, contents untouched. */
  function Prune(h: History, cutoffKey: string): (r: History)
    ensures forall k :: k in r <==> k in h && !Less(k, cutoffKey)
    ensures forall k :: k in r ==> r[k] == h[k]
  {
    map k | k in h && !Less(k, cutoffKey) :: h[k]
  }

  /** Whether the stored settings let cleanup run (`settings?.autoCleanup`). */
  predicate CleanupAllowed(store: Store)
  {
    store.visitHistory.Some? && store.settings.Some? && store.settings.value.autoCleanup
  }

  function PerformCleanup(store: Store, now: YearMonth): (s: Store)
    requires 1 <= now.month <= 12
    ensures s.settings == store.settings && s.redlist == store.redlist && s.retryQueue == store.retryQueue
    ensures !CleanupAllowed(store) ==> s == store
    ensures CleanupAllowed(store) ==> (
      && s.visitHistory.Some?
      && s.visitHistory.value.Keys <= store.visitHistory.value.Keys
      && (forall k :: k in store.visitHistory.value ==>
            (k in s.visitHistory.value <==> AtMost(CutoffKey(now, KeepMonths(store.settings)), k)))
      && (forall k :: k in s.visitHistory.value ==> s.visitHistory.value[k] == store.visitHistory.value[k]))
    ensures ValidStore(store) ==> ValidStore(s)
  {
    if !CleanupAllowed(store) then store
    else
      var cutoff := CutoffKey(now, KeepMonths(store.settings));
      forall k {
        NotLessIsAtMost(k, cutoff);
      }
      store.(visitHistory := Some(Prune(store.visitHistory.value, cutoff)))
  }

  /** `bytesInUse > QUOTA_BYTES * 0.8`, in integers. */
  predicate StorageHigh(bytesInUse: int, quotaBytes: int)
  {
    5 * bytesInUse > 4 * quotaBytes
  }

  /** Above 80% of the quota cleanup runs now, but still only if the settings allow it: there is no override. */
  function CheckStorageUsage(store: Store, bytesInUse: int, quotaBytes: int, now: YearMonth): (s: Store)
    requires 1 <= now.month <= 12
    ensures !StorageHigh(bytesInUse, quotaBytes) ==> s == store
    ensures !CleanupAllowed(store) ==> s == store
    ensures StorageHigh(bytesInUse, quotaBytes) ==> s == PerformCleanup(store, now)
  {
    if StorageHigh(bytesInUse, quotaBytes) then PerformCleanup(store, now) else store
  }

  /** For four-digit years, month keys sort as strings exactly as the months sort in time. */
  lemma MonthKeyOrder(a: YearMonth, b: YearMonth)
    requires 1000 <= a.year <= 9999 && 1 <= a.month <= 12
    requires 1000 <= b.year <= 9999 && 1 <= b.month <= 12
    ensures Less(MonthKey(a), MonthKey(b)) <==> MonthIndex(a) < MonthIndex(b)
    ensures MonthKey(a) == MonthKey(b) <==> a == b
  {
    var ya, yb := NatToString(a.year), NatToString(b.year);
    var pa, pb := Pad2(a.month), Pad2(b.month);
    NatToStringDigits(a.year);
    NatToStringDigits(b.year);
    NatToStringFourDigits(a.year);
    NatToStringFourDigits(b.year);
    Pad2Digits(a.month);
    Pad2Digits(b.month);
    DigitsOrder(ya, yb);
    DigitsOrder(pa, pb);
    assert MonthKey(a) == ya + ("-" + pa) && MonthKey(b) == yb + ("-" + pb);
    LessConcat(ya, "-" + pa, yb, "-" + pb);
    LessConcat("-", pa, "-", pb);
    if MonthKey(a) == MonthKey(b) {
      assert MonthKey(a)[..4] == ya && MonthKey(b)[..4] == yb;
      assert MonthKey(a)[5..] == pa && MonthKey(b)[5..] == pb;
    }
  }

  /**
   Cleanup keeps a well-formed month bucket exactly when it lies no more than
   `KeepMonths` months before now.
   */
  lemma CleanupKeepsRecentMonths(store: Store, now: YearMonth, ym: YearMonth)
    requires 1 <= now.month <= 12
    requires 1000 <= ym.year <= 9999 && 1 <= ym.month <= 12
    requires 1000 <= MonthsBefore(now, KeepMonths(store.settings)).year <= 9999
    requires CleanupAllowed(store) && MonthKey(ym) in store.visitHistory.value
    ensures MonthKey(ym) in PerformCleanup(store, now).visitHistory.value
      <==> MonthIndex(ym) >= MonthIndex(now) - KeepMonths(store.settings)
  {
    var c := MonthsBefore(now, KeepMonths(store.settings));
    var s := PerformCleanup(store, now);
    assert MonthKey(ym) in s.visitHistory.value <==> AtMost(MonthKey(c), MonthKey(ym));
    MonthKeyOrder(c, ym);
    MonthKeyOrder(ym, c);
    LessTotal(MonthKey(c), MonthKey(ym));
  }

  /** With six months kept in June 2025, "2024-12" stays and "2024-11" goes. */
  lemma SixMonthsFromJune2025(store: Store)
    requires CleanupAllowed(store) && KeepMonths(store.settings) == 6
    requires "2024-12" in store.visitHistory.value && "2024-11" in store.visitHistory.value
    ensures "2024-12" in PerformCleanup(store, YearMonth(2025, 6)).visitHistory.value
    ensures "2024-11" !in PerformCleanup(store, YearMonth(2025, 6)).visitHistory.value
  {
    var dec, nov := YearMonth(2024, 12), YearMonth(2024, 11);
    assert MonthsBefore(YearMonth(2025, 6), 6) == dec;
    assert NatToString(2024) == "2024" by {
      assert NatToString(2) == "2";
      assert NatToString(20) == "20";
      assert NatToString(202) == "202";
    }
    assert Pad2(12) == "12" by {
      assert NatToString(1) == "1";
    }
    assert Pad2(11) == "11" by {
      assert NatToString(1) == "1";
    }
    assert MonthKey(dec) == "2024-12";
    assert MonthKey(nov) == "2024-11";
    CleanupKeepsRecentMonths(store, YearMonth(2025, 6), dec);
    CleanupKeepsRecentMonths(store, YearMonth(2025, 6), nov);
  }
}

=== FILE: retryqueue.dfy ===
/**
 `processRetryQueue`: every queued request older than the retry delay gets one
 more attempt; the ones whose attempt succeeds leave the queue, everything else
 stays where it was. The failed attempt's own re-queueing is overwritten by the
 final store of the new queue, so a failed entry is kept once, unchanged.
 */
module RetryQueue {
  import opened Wrappers
  import opened Bookmarks

  /** One hour in milliseconds. */
  const RetryDelay: int := 60 * 60 * 1000

  /** `now - item.timestamp > RETRY_DELAY`. */
  predicate Due(item: RetryItem, now: int)
  {
    now - item.timestamp > RetryDelay
  }

  /** How many flags are set. */
  function CountSet(keep: seq<bool>): nat
  {
    if |keep| == 0 then 0 else CountSet(keep[..|keep| - 1]) + if keep[|keep| - 1] then 1 else 0
  }

  /** The elements of `s` whose flag in `keep` is set, in their original order. */
  function Select<T>(s: seq<T>, keep: seq<bool>): (r: seq<T>)
    requires |keep| == |s|
    ensures |r| == CountSet(keep) <= |s|
    ensures forall x :: x in r ==> x in s
    ensures forall i :: 0 <= i < |s| && keep[i] ==> s[i] in r
    ensures (forall i :: 0 <= i < |s| ==> keep[i]) ==> r == s
    ensures (forall i :: 0 <= i < |s| ==> !keep[i]) ==> r == []
  {
    if |s| == 0 then []
    else
      var n := |s| - 1;
      var r := Select(s[..n], keep[..n]);
      assert keep == keep[..n] + [keep[n]];
      assert forall i :: 0 <= i < n ==> s[..n][i] == s[i] && keep[..n][i] == keep[i];
      assert s == s[..n] + [s[n]];
      if keep[n] then r + [s[n]] else r
  }

  /** Keep flags of the drain: an entry stays when it is not yet due or its one attempt fails. */
  function KeepFlags(queue: seq<RetryItem>, now: int, answers: nat -> Attempt): (keep: seq<bool>)
    ensures |keep| == |queue|
  {
    seq(|queue|, i requires 0 <= i < |queue| => !Due(queue[i], now) || answers(i) == Failed)
  }

  /**
   The drain's step for one entry: whether it stays queued. A due entry gets
   one attempt (`maxRetries` 1) and stays exactly when that attempt fails.
   */
  method Revisit(item: RetryItem, retryQueue: Option<seq<RetryItem>>, now: int, answer: Attempt) returns (stays: bool)
    ensures stays <==> !Due(item, now) || answer == Failed
  {
    if Due(item, now) {
      var single: nat -> Attempt := _ => answer;
      // the nested call re-queues on failure, but the drain's final store overwrites that write
      var success, _, _, _ := AddToBookmarksWithRetry(item.url, item.title, item.visitData, retryQueue, now, 1, single);
      assert single(0) == answer;
      stays := !success;
    } else {
      stays := true;
    }
  }

  /**
   `answers(i)` is the bookmark collaborator's outcome for the single attempt
   made for entry `i`; the result is the queue stored afterwards (nothing is
   stored when there is no queue or it is empty).
   */
  method ProcessRetryQueue(retryQueue: Option<seq<RetryItem>>, now: int, answers: nat -> Attempt)
    returns (stored: Option<seq<RetryItem>>)
    ensures retryQueue.None? ==> stored == None
    ensures retryQueue.Some? ==> stored.Some? && stored.value == Select(retryQueue.value, KeepFlags(retryQueue.value, now, answers))
  {
    if retryQueue.None? || |retryQueue.value| == 0 {
      return retryQueue;
    }
    var queue := retryQueue.value;
    ghost var keep := KeepFlags(queue, now, answers);
    var newQueue := [];
    var i := 0;
    while i < |queue|
      invariant 0 <= i <= |queue|
      invariant newQueue == Select(queue[..i], keep[..i])
    {
      var item := queue[i];
      assert queue[..i + 1] == queue[..i] + [item] && keep[..i + 1][..i] == keep[..i];
      assert queue[..i + 1][..i] == queue[..i];
      var stays := Revisit(item, retryQueue, now, answers(i));
      if stays {
        newQueue := newQueue + [item];
      }
      i := i + 1;
    }
    assert queue[..|queue|] == queue && keep[..|queue|] == keep;
    return Some(newQueue);
  }

  /**
   What the drain leaves: never more entries than before, in their old order;
   an entry not yet due stays, a due entry stays exactly when its attempt fails.
   */
  lemma DrainKeepsExactlyTheUnfinished(queue: seq<RetryItem>, now: int, answers: nat -> Attempt)
    ensures var r := Select(queue, KeepFlags(queue, now, answers));
      && |r| <= |queue|
      && (forall x :: x in r ==> x in queue)
      && (forall i :: 0 <= i < |queue| && (!Due(queue[i], now) || answers(i) == Failed) ==> queue[i] in r)
      && ((forall i :: 0 <= i < |queue| ==> !Due(queue[i], now)) ==> r == queue)
      && ((forall i :: 0 <= i < |queue| ==> Due(queue[i], now) && answers(i) != Failed) ==> r == [])
  {
  }
}

=== FILE: storage.dfy ===
/**
 The extension's `chrome.storage.local` contents: each key may be absent
 (`None`), as on a fresh profile or after a failed write.
 */
module Storage {
  import opened Wrappers
  import opened Strings
  import opened Visits
  import opened Redlist
  import opened Bookmarks

  /** Visit statistics by month key ("YYYY-MM"), then by URL. */
  type History = map<string, map<string, VisitRecord>>

  datatype Store = Store(
    settings: Option<Settings>,
    redlist: Option<seq<RedlistItem>>,
    visitHistory: Option<History>,
    retryQueue: Option<seq<RetryItem>>)

  /** Every stored record keeps the record invariant. */
  predicate ValidHistory(h: History)
  {
    forall m, u :: m in h && u in h[m] ==> ValidRecord(h[m][u])
  }

  predicate ValidStore(s: Store)
  {
    s.visitHistory.Some? ==> ValidHistory(s.visitHistory.value)
  }

  /** What `onInstalled` writes: default settings, an empty history and the default exclusion list. */
  const Installed: Store := Store(Some(DefaultSettings), Some(DefaultRedlist), Some(map[]), None)

  /**
   A fresh install satisfies the store invariant, has no retry queue, and
   already excludes every one-line `chrome://` page.
   */
  lemma InstalledStore()
    ensures ValidStore(Installed) && Installed.retryQueue.None?
    ensures forall url :: IsPrefix("chrome://", url) && (forall i :: 0 <= i < |url| ==> AnyChar(url[i])) ==>
      IsRedlisted(url, Installed.redlist)
  {
    forall url | IsPrefix("chrome://", url) && (forall i :: 0 <= i < |url| ==> AnyChar(url[i]))
      ensures IsRedlisted(url, Installed.redlist)
    {
      DefaultExcludesChromePages(url);
    }
  }
}

=== FILE: strings.dfy ===
/**
 JavaScript string operations the background worker relies on: the relational
 operators on strings (used by `Array.prototype.sort` and by `>=` on month
 keys), `String.prototype.includes`, and `String(n)` / `padStart` for the
 "YYYY-MM" keys. Characters are compared by their value, which agrees with
 JavaScript's UTF-16 code-unit order on the Basic Multilingual Plane.
 */
module Strings {

  /** `a < b` on JavaScript strings: lexicographic, a proper prefix sorts first. */
  predicate Less(a: string, b: string)
  {
    if |a| == 0 then |b| > 0
    else if |b| == 0 then false
    else if a[0] != b[0] then a[0] < b[0]
    else Less(a[1..], b[1..])
  }

  /** `a <= b` on JavaScript strings. */
  predicate AtMost(a: string, b: string)
  {
    a == b || Less(a, b)
  }

  lemma {:induction false} LessIrreflexive(a: string)
    ensures !Less(a, a)
  {
    if |a| > 0 {
      LessIrreflexive(a[1..]);
    }
  }

  lemma {:induction false} LessAsymmetric(a: string, b: string)
    ensures !(Less(a, b) && Less(b, a))
  {
    if |a| > 0 && |b| > 0 && a[0] == b[0] {
      LessAsymmetric(a[1..], b[1..]);
    }
  }

  /** Any two distinct strings are ordered one way or the other. */
  lemma {:induction false} LessTotal(a: string, b: string)
    ensures Less(a, b) || a == b || Less(b, a)
  {
    if |a| > 0 && |b| > 0 && a[0] == b[0] {
      LessTotal(a[1..], b[1..]);
      if a[1..] == b[1..] {
        assert a == [a[0]] + a[1..] && b == [b[0]] + b[1..];
      }
    }
  }

  lemma {:induction false} LessTransitive(a: string, b: string, c: string)
    requires Less(a, b) && Less(b, c)
    ensures Less(a, c)
  {
    if |a| > 0 && a[0] == b[0] && b[0] == c[0] {
      LessTransitive(a[1..], b[1..], c[1..]);
    }
  }

  lemma AtMostTransitive(a: string, b: string, c: string)
    requires AtMost(a, b) && AtMost(b, c)
    ensures AtMost(a, c)
  {
    if Less(a, b) && Less(b, c) {
      LessTransitive(a, b, c);
    }
  }

  lemma AtMostAntisymmetric(a: string, b: string)
    requires AtMost(a, b) && AtMost(b, a)
    ensures a == b
  {
    LessAsymmetric(a, b);
  }

  /** JavaScript's `a >= b` is the negation of `a < b`, which is `b <= a`. */
  lemma NotLessIsAtMost(a: string, b: string)
    ensures !Less(a, b) <==> AtMost(b, a)
  {
  }

  /** Comparing two strings that share a prefix length: the prefixes decide unless they are equal. */
  lemma {:induction false} LessConcat(a: string, c: string, b: string, d: string)
    requires |a| == |b|
    ensures Less(a + c, b + d) <==> Less(a, b) || (a == b && Less(c, d))
  {
    if |a| == 0 {
      assert a + c == c && b + d == d;
    } else {
      assert (a + c)[0] == a[0] && (b + d)[0] == b[0];
      assert (a + c)[1..] == a[1..] + c && (b + d)[1..] == b[1..] + d;
      LessConcat(a[1..], c, b[1..], d);
      if a[0] == b[0] {
        assert a[1..] == b[1..] ==> a == b;
        assert a == b ==> a[1..] == b[1..];
      }
    }
  }

  predicate IsPrefix(t: string, s: string)
  {
    |t| <= |s| && s[..|t|] == t
  }

  /** `t` occurs in `s` starting at offset `i`. */
  predicate OccursAt(s: string, t: string, i: int)
  {
    0 <= i <= |s| - |t| && s[i..i + |t|] == t
  }

  /** `s.includes(t)`: `t` occurs in `s` at some offset (the empty string occurs everywhere). */
  function Includes(s: string, t: string): (r: bool)
    ensures r <==> exists i :: OccursAt(s, t, i)
    decreases |s|
  {
    if IsPrefix(t, s) then
      assert OccursAt(s, t, 0);
      true
    else if |s| == 0 then
      false
    else
      var r := Includes(s[1..], t);
      if r then
        var i :| OccursAt(s[1..], t, i);
        assert OccursAt(s, t, i + 1);
        true
      else
        assert forall i :: OccursAt(s, t, i) ==> i == 0 || OccursAt(s[1..], t, i - 1);
        false
  }

  function DigitChar(d: nat): char
    requires d < 10
  {
    ['0', '1', '2', '3', '4', '5', '6', '7', '8', '9'][d]
  }

  /** `String(n)` for a non-negative integer: decimal digits, no padding. */
  function NatToString(n: nat): string
  {
    if n < 10 then [DigitChar(n)] else NatToString(n / 10) + [DigitChar(n % 10)]
  }

  /** `String(n)` for any integer. */
  function IntToString(n: int): string
  {
    if n < 0 then "-" + NatToString(-n) else NatToString(n)
  }

  /** `String(n).padStart(2, "0")`. */
  function Pad2(n: int): string
  {
    var s := IntToString(n);
    if |s| < 2 then "0" + s else s
  }

  predicate IsDigit(c: char)
  {
    '0' <= c <= '9'
  }

  predicate AllDigits(s: string)
  {
    forall i :: 0 <= i < |s| ==> IsDigit(s[i])
  }

  /** The number a string of decimal digits denotes. */
  function DigitsValue(s: string): nat
    requires AllDigits(s)
  {
    if |s| == 0 then 0 else 10 * DigitsValue(s[..|s| - 1]) + (s[|s| - 1] as int - '0' as int)
  }

  /**
   On digit strings of one length, string order is numeric order, and equal
   values mean equal strings: the reason zero-padded keys sort chronologically.
   */
  lemma {:induction false} DigitsOrder(a: string, b: string)
    requires AllDigits(a) && AllDigits(b) && |a| == |b|
    ensures Less(a, b) <==> DigitsValue(a) < DigitsValue(b)
    ensures a == b <==> DigitsValue(a) == DigitsValue(b)
  {
    if |a| > 0 {
      var n := |a| - 1;
      var pa, pb := a[..n], b[..n];
      assert AllDigits(pa) && AllDigits(pb);
      DigitsOrder(pa, pb);
      assert a == pa + [a[n]] && b == pb + [b[n]];
      LessConcat(pa, [a[n]], pb, [b[n]]);
      assert Less([a[n]], [b[n]]) <==> a[n] < b[n];
      if pa == pb && a[n] == b[n] {
        assert a == b;
      }
    }
  }

  lemma {:induction false} NatToStringDigits(n: nat)
    ensures AllDigits(NatToString(n))
    ensures DigitsValue(NatToString(n)) == n
    ensures |NatToString(n)| >= 1
  {
    var s := NatToString(n);
    if n >= 10 {
      NatToStringDigits(n / 10);
      assert s[..|s| - 1] == NatToString(n / 10);
      assert AllDigits(s) by {
        forall i | 0 <= i < |s|
          ensures IsDigit(s[i])
        {
          if i < |s| - 1 {
            assert s[i] == NatToString(n / 10)[i];
          }
        }
      }
    }
  }

  /** `String(n)` has four characters exactly for the four-digit numbers. */
  lemma NatToStringFourDigits(n: nat)
    requires 1000 <= n <= 9999
    ensures |NatToString(n)| == 4
  {
    assert (n / 10) / 10 == n / 100 && (n / 100) / 10 == n / 1000;
    assert |NatToString(n / 1000)| == 1;
    assert |NatToString(n / 100)| == 2;
    assert |NatToString(n / 10)| == 3;
  }

  lemma Pad2Digits(n: int)
    requires 1 <= n <= 12
    ensures |Pad2(n)| == 2 && AllDigits(Pad2(n)) && DigitsValue(Pad2(n)) == n
  {
    NatToStringDigits(n);
    var s := NatToString(n);
    if n < 10 {
      assert Pad2(n) == "0" + s;
      assert DigitsValue(Pad2(n)[..1]) == 0;
    } else {
      assert |NatToString(n / 10)| == 1;
    }
  }
}

=== FILE: tiers.dfy ===
/** The frequency tier that picks a promoted bookmark's sub-folder (`getFrequencyFolder`). */
module Tiers {

  datatype Tier = New | Weekly | Regular | Daily

  function Rank(t: Tier): nat
  {
    match t
    case New => 0
    case Weekly => 1
    case Regular => 2
    case Daily => 3
  }

  /** The smallest visit count that reaches tier `t`; `New` is reached by every count. */
  function Floor(t: Tier): int
    requires t != New
  {
    match t
    case Weekly => 4
    case Regular => 7
    case Daily => 15
  }

  /**
   The tier for a record with `visitCount` capped visits over `visitDays`
   days: the highest tier whose floor the count reaches. The number of days
   is passed along by the source but takes no part in the choice.
   */
  function Classify(visitCount: int, visitDays: nat): (t: Tier)
    ensures forall u :: u != New ==> (Rank(u) <= Rank(t) <==> Floor(u) <= visitCount)
  {
    if visitCount >= 15 then Daily
    else if visitCount >= 7 then Regular
    else if visitCount >= 4 then Weekly
    else New
  }

  /** More visits never give a lower tier, whatever the day counts. */
  lemma ClassifyMonotone(a: int, b: int, daysA: nat, daysB: nat)
    requires a <= b
    ensures Rank(Classify(a, daysA)) <= Rank(Classify(b, daysB))
  {
  }

  /** The sub-folder title of each tier. */
  function FolderName(t: Tier): string
  {
    match t
    case Daily => "\U{1F525} Daily"
    case Regular => "\U{2B50} Regular"
    case Weekly => "\U{1F4C5} Weekly"
    case New => "\U{1F4A1} New"
  }

  /** Folders are looked up by title, so distinct tiers need distinct titles. */
  lemma FolderNamesDistinct(t: Tier, u: Tier)
    requires t != u
    ensures FolderName(t) != FolderName(u)
  {
  }
}

=== FILE: visits.dfy ===
/**
 The per-URL visit record and the counting step of `processVisit`: create the
 record on first sight, take the latest title, count today's visit, evict old
 days, and either stop at the daily flood limit or recompute the capped total
 and decide whether to try a bookmark.
 */
module Visits {
  import opened Wrappers
  import opened Strings
  import opened Days

  datatype Settings = Settings(
    enabled: bool,
    threshold: int,
    excludeDailyThreshold: int,
    keepDataMonths: int,
    organizationType: string,
    autoCleanup: bool)

  /** The settings written at install time. */
  const DefaultSettings := Settings(true, 3, 3, 6, "frequency", true)

  datatype VisitRecord = VisitRecord(
    dailyVisits: seq<DayCount>,
    totalCount: int,
    title: string,
    bookmarked: bool,
    firstVisit: string)

  /** What a stored record always satisfies: a JSON object holds each date once, and the count step keeps the bounds. */
  predicate ValidRecord(r: VisitRecord)
  {
    && DistinctDates(r.dailyVisits)
    && |r.dailyVisits| <= MaxDays
    && 0 <= r.totalCount <= DailyCap * MaxDays
  }

  /** The record created the first time a URL is seen in a month. */
  function NewRecord(title: string, today: string): (r: VisitRecord)
    ensures ValidRecord(r) && r.dailyVisits == [] && r.totalCount == 0 && !r.bookmarked
    ensures r.title == title && r.firstVisit == today
  {
    VisitRecord([], 0, title, false, today)
  }

  /** The days stored before this visit (none for a new record). */
  function PriorDays(existing: Option<VisitRecord>): seq<DayCount>
  {
    if existing.Some? then existing.value.dailyVisits else []
  }

  /**
   The early-return test `dailyVisits[today] >= excludeDailyThreshold`. When
   eviction has removed today's own entry the left side is `undefined` and the
   comparison is false.
   */
  predicate Flooded(days: seq<DayCount>, today: string, limit: int)
  {
    HasDate(days, today) && CountOn(days, today) >= limit
  }

  /** The counted record and whether `addToBookmarksWithRetry` is to be called for it. */
  datatype Counted = Counted(record: VisitRecord, attempt: bool)

  /**
   The day table after counting a visit on `today` (`dailyVisits[today] += 1`,
   then eviction of the oldest days beyond `MaxDays`).
   */
  function CountDay(prior: seq<DayCount>, today: string): (days: seq<DayCount>)
    requires DistinctDates(prior)
    ensures DistinctDates(days) && |days| <= MaxDays
    // today's count goes up by one; no other stored day changes
    ensures forall k :: HasDate(days, k) ==> CountOn(days, k) == CountOn(prior, k) + (if k == today then 1 else 0)
    ensures forall k :: k != today && HasDate(days, k) ==> HasDate(prior, k)
    // only the oldest days go, and only beyond the limit
    ensures |days| == Min(|prior| + (if HasDate(prior, today) then 0 else 1), MaxDays)
    ensures forall k, j :: (HasDate(prior, k) && !HasDate(days, k) && 0 <= j < |days|) ==> AtMost(k, days[j].date)
    ensures (forall j :: 0 <= j < |prior| ==> AtMost(prior[j].date, today)) ==> HasDate(days, today)
    // a new today is dropped only when it is no later than every kept day
    ensures !HasDate(days, today) ==> forall j :: 0 <= j < |days| ==> AtMost(today, days[j].date)
  {
    var counted := Increment(prior, today);
    EvictOnlyRemoves(counted);
    TodayIsLatest(prior, counted, today);
    Evict(counted)
  }

  /**
   Lines 84-125 of `processVisit` for one URL in one month: the record after
   the visit, and whether a bookmark attempt follows.
   */
  function CountVisit(existing: Option<VisitRecord>, title: string, today: string, settings: Settings): (c: Counted)
    requires existing.Some? ==> ValidRecord(existing.value)
    ensures ValidRecord(c.record)
    ensures c.record.title == title
    ensures c.record.firstVisit == if existing.Some? then existing.value.firstVisit else today
    ensures c.record.bookmarked == (existing.Some? && existing.value.bookmarked)
    ensures c.record.dailyVisits == CountDay(PriorDays(existing), today)
    // the flood short-circuit keeps the old total and never bookmarks
    ensures Flooded(c.record.dailyVisits, today, settings.excludeDailyThreshold) ==>
      !c.attempt && c.record.totalCount == (if existing.Some? then existing.value.totalCount else 0)
    ensures !Flooded(c.record.dailyVisits, today, settings.excludeDailyThreshold) ==>
      c.record.totalCount == CappedSum(c.record.dailyVisits)
    ensures c.attempt <==>
      && !Flooded(c.record.dailyVisits, today, settings.excludeDailyThreshold)
      && c.record.totalCount >= settings.threshold
      && !c.record.bookmarked
  {
    var base := existing.GetOr(NewRecord(title, today));
    var days := CountDay(base.dailyVisits, today);
    var touched := base.(title := title, dailyVisits := days);
    if Flooded(days, today, settings.excludeDailyThreshold) then
      Counted(touched, false)
    else
      var total := CappedSum(days);
      Counted(touched.(totalCount := total), total >= settings.threshold && !base.bookmarked)
  }

  /** If no stored day is later than today, today's entry is the latest after counting and survives eviction. */
  lemma TodayIsLatest(prior: seq<DayCount>, counted: seq<DayCount>, today: string)
    requires DistinctDates(prior) && counted == Increment(prior, today)
    ensures (forall j :: 0 <= j < |prior| ==> AtMost(prior[j].date, today)) ==> HasDate(Evict(counted), today)
  {
    if forall j :: 0 <= j < |prior| ==> AtMost(prior[j].date, today) {
      var k := Find(counted, today);
      forall j | 0 <= j < |counted|
        ensures AtMost(counted[j].date, counted[k].date)
      {
        var date := counted[j].date;
        if date != today {
          assert HasDate(counted, date);
          assert HasDate(prior, date);
          assert prior[Find(prior, date)].date == date;
        }
      }
      EvictKeepsLatest(counted, k);
      EntryCount(Evict(counted), counted[k]);
    }
  }

  /** The day table after one visit on each of `days`, in order, starting from `prior`. */
  function VisitEach(prior: seq<DayCount>, days: seq<string>): (d: seq<DayCount>)
    requires DistinctDates(prior)
    ensures DistinctDates(d)
  {
    if |days| == 0 then prior else CountDay(VisitEach(prior, days[..|days| - 1]), days[|days| - 1])
  }

  /** Dates strictly increasing along the table. */
  predicate Ascending(d: seq<DayCount>)
  {
    forall i, j :: 0 <= i < j < |d| ==> Less(d[i].date, d[j].date)
  }

  /** A visit on a day later than every stored one appends it and, past the limit, drops the first entry. */
  lemma VisitLaterDay(d: seq<DayCount>, t: string)
    requires DistinctDates(d) && Ascending(d) && |d| <= MaxDays
    requires forall i :: 0 <= i < |d| ==> Less(d[i].date, t)
    ensures CountDay(d, t) == if |d| < MaxDays then d + [DayCount(t, 1)] else (d + [DayCount(t, 1)])[1..]
  {
    assert Find(d, t) == |d| by {
      if Find(d, t) < |d| {
        LessIrreflexive(t);
      }
    }
    var x := Increment(d, t);
    assert x == d + [DayCount(t, 1)];
    if |x| > MaxDays {
      var m := OldestIndex(x);
      if m != 0 {
        LessAsymmetric(x[0].date, x[m].date);
      }
      assert RemoveAt(x, 0) == x[1..];
    }
  }

  /** The table holding one visit on each of the last `|d|` of `days`, oldest first. */
  predicate OnePerLatest(d: seq<DayCount>, days: seq<string>)
  {
    |d| <= |days| && forall i :: 0 <= i < |d| ==> d[i] == DayCount(days[|days| - |d| + i], 1)
  }

  lemma OnePerLatestAscending(d: seq<DayCount>, days: seq<string>, t: string)
    requires OnePerLatest(d, days)
    requires forall i, j :: 0 <= i < j < |days| ==> Less(days[i], days[j])
    requires forall i :: 0 <= i < |days| ==> Less(days[i], t)
    ensures DistinctDates(d) && Ascending(d)
    ensures forall i :: 0 <= i < |d| ==> Less(d[i].date, t)
  {
    var lo := |days| - |d|;
    forall i, j | 0 <= i < j < |d|
      ensures Less(d[i].date, d[j].date) && d[i].date != d[j].date
    {
      assert d[i].date == days[lo + i] && d[j].date == days[lo + j];
      LessIrreflexive(d[i].date);
    }
  }

  lemma OnePerLatestStep(d: seq<DayCount>, days: seq<string>, t: string)
    requires OnePerLatest(d, days) && |d| <= MaxDays
    ensures var r := if |d| < MaxDays then d + [DayCount(t, 1)] else (d + [DayCount(t, 1)])[1..];
      OnePerLatest(r, days + [t])
  {
  }

  /**
   One visit on each of a run of ever later days leaves exactly the latest
   `MaxDays` of them, oldest first, one visit each: after 40 days the first 9
   are gone.
   */
  lemma {:induction false} LatestDaysKept(days: seq<string>)
    requires forall i, j :: 0 <= i < j < |days| ==> Less(days[i], days[j])
    ensures |VisitEach([], days)| == Min(|days|, MaxDays)
    ensures OnePerLatest(VisitEach([], days), days)
  {
    if |days| > 0 {
      var n := |days|;
      var front := days[..n - 1];
      var t := days[n - 1];
      assert days == front + [t];
      LatestDaysKept(front);
      var d := VisitEach([], front);
      OnePerLatestAscending(d, front, t);
      VisitLaterDay(d, t);
      OnePerLatestStep(d, front, t);
    }
  }

  /** Once bookmarked, a record stays bookmarked and no further visit tries to bookmark it again. */
  lemma BookmarkedIsFinal(existing: VisitRecord, title: string, today: string, settings: Settings)
    requires ValidRecord(existing) && existing.bookmarked
    ensures CountVisit(Some(existing), title, today, settings).record.bookmarked
    ensures !CountVisit(Some(existing), title, today, settings).attempt
  {
  }

  /**
   Today's entry survives the visit's eviction exactly when the table already
   holds today, has room for one more day, or holds some day earlier than
   today. Otherwise today is the new oldest of 32 days and is dropped.
   */
  lemma TodaySurvives(prior: seq<DayCount>, today: string)
    requires DistinctDates(prior) && |prior| <= MaxDays
    ensures HasDate(CountDay(prior, today), today) <==>
      || HasDate(prior, today)
      || |prior| < MaxDays
      || exists j :: 0 <= j < |prior| && Less(prior[j].date, today)
  {
    var counted := Increment(prior, today);
    assert CountDay(prior, today) == Evict(counted);
    if HasDate(prior, today) || |prior| < MaxDays {
      assert Evict(counted) == counted;
    } else {
      // a new today on a full table: 32 entries, the oldest goes
      assert counted == prior + [DayCount(today, 1)];
      var k := |prior|;
      assert counted[k].date == today;
      EvictOneOver(counted);
      var m := OldestIndex(counted);
      var r := RemoveAt(counted, m);
      if exists j :: 0 <= j < |prior| && Less(prior[j].date, today) {
        var j :| 0 <= j < |prior| && Less(prior[j].date, today);
        assert counted[j] == prior[j];
        assert AtMost(counted[m].date, prior[j].date);
        assert counted[m].date != today by {
          LessIrreflexive(today);
          LessAsymmetric(prior[j].date, today);
        }
        assert counted[k] != counted[m];
        assert counted[k] in r;
        EntryCount(r, counted[k]);
      } else {
        assert counted[m].date == today;
        assert !HasDate(r, today);
      }
    }
  }

  /**
   A visit that brings today's count up to the flood limit never triggers a
   bookmark and leaves the total as it was, whenever today's entry survives
   eviction, which by `TodaySurvives` is exactly when the table already holds
   today, has room for it, or holds an earlier day. (A record of one month
   never holds more than 31 days, so within `processVisit` one of the first two
   always holds.)
   */
  lemma FloodNeverBookmarks(existing: Option<VisitRecord>, title: string, today: string, settings: Settings)
    requires existing.Some? ==> ValidRecord(existing.value)
    requires || HasDate(PriorDays(existing), today)
             || |PriorDays(existing)| < MaxDays
             || exists j :: 0 <= j < |PriorDays(existing)| && Less(PriorDays(existing)[j].date, today)
    requires CountOn(PriorDays(existing), today) + 1 >= settings.excludeDailyThreshold
    ensures !CountVisit(existing, title, today, settings).attempt
    ensures CountVisit(existing, title, today, settings).record.totalCount == if existing.Some? then existing.value.totalCount else 0
  {
    TodaySurvives(PriorDays(existing), today);
  }

  /** The capped total of a counted record never exceeds two per stored day, so never 62. */
  lemma TotalBounded(existing: Option<VisitRecord>, title: string, today: string, settings: Settings)
    requires existing.Some? ==> ValidRecord(existing.value)
    ensures var c := CountVisit(existing, title, today, settings);
      !Flooded(c.record.dailyVisits, today, settings.excludeDailyThreshold) ==>
        c.record.totalCount <= DailyCap * |c.record.dailyVisits| <= DailyCap * MaxDays
  {
  }
}

=== FILE: wrappers.dfy ===
/** Option, the model's stand-in for a JavaScript value that may be `undefined`. */
module Wrappers {

  datatype Option<+T> = None | Some(value: T) {

    /** The value, or `default` when absent (JavaScript's `x || default` on objects). */
    function GetOr(default: T): T {
      match this
      case Some(v) => v
      case None => default
    }
  }
}
